=== FILE: README.md ===
# Media-synchronised carousel: a Dafny model

This project models the stateful core of a marketing page's media carousel. It covers:

- the store's **playback slot**, which names the one video player, if any, that currently owns playback;
- the **inline video players** that resolve a video descriptor into a playable source and give up playback when another player claims the slot;
- the **slider**, whose auto-animation (autoplay or auto-scroll) is stopped or restarted from a few boolean triggers, and its controls (pause toggle, next, previous, dots).

React effects are restated as named handlers over immutable records. The eviction reaction and the pause effect are idempotent. The resolution effect is not: each Brightcove run starts a fresh attempt. The store, a page of N players and one slider are plain values with pure step functions. The Embla carousel library is reduced to a snapshot of what it reports (`Embla.EmblaApi`) and a record of the calls made to it (`Embla.EmblaCall`).

Modules, one per source file:

- `Base` holds `Option` and `Result`.
- `MediaSlice` is `features/media/store/media-slice.ts`.
- `InlineVideo` is `features/media/components/inline-video.tsx`.
- `Playback` holds the page-level composition of the slot with N players that have distinct ids.
- `Embla` is the library boundary.
- `SliderProvider`, `AppSlider`, `SliderPauseButton`, `SliderNextButton`, `SliderPrevButton` and `SliderDots` are the `features/slider` files.
- `SliderSystem` proves lemmas about the controls acting on a running carousel. It also pairs the slider with its dots, which refresh when the library appears and on every `reInit`.

Modelling choices that follow the code:

- Each Brightcove resolution attempt gets its own token. `Player.active` names the attempt whose activity flag is still set and whose request is still in flight. A completion is one atomic event, because every write after the last `await` happens in the same synchronous segment.
- `handlePlay`, the media element's `onPlay` callback, writes the slot but not the local `isPlaying`. Only `play()` sets `isPlaying`; it is called from the poster or through the imperative handle.
- The eviction effect depends on the slot's value. The store keeps the same value when the owner re-claims the slot, so the effect does not re-run then. `Playback.Dispatch` runs the reactions only when the value changes. As a result, exclusivity is guaranteed only after a real change of owner, or from a page where every playing player owns the slot (`Playback.PlayerStartedExcludesOthers`). `Playback.ReclaimDoesNotEvict` and `Playback.PlayCallOverlaps` state exactly when two players can play at once.
- A new descriptor never clears an earlier `error` or `src`. The model keeps this (`InlineVideo.StaleErrorPersists`).
- Nothing ever sets `isFirstPlay` to false; the code only sets it to true. So a poster-video player shows its poster whenever it is not playing, not only before its first play (`InlineVideo.FirstPlayNeverCleared`).
- The animation plugin's timer follows the Embla Carousel Autoplay documentation: `reset()` restarts a running timer and does nothing to a stopped one. Under that rule, the code's resume call for autoplay does not restart the animation after a pause (see "## Findings"). `AppSlider.ReactAsWritten` and `AppSlider.StepAsWritten` model the code as written. `AppSlider.React`, `AppSlider.Step` and the lemmas built on them use the corrected call, `play()`.
- The slider components read `emblaApi`, `isHovered` and `setIsHovered` from the slider context, but the provider in `features/slider/components/slider-provider.tsx` does not define them. The model supplies them from outside the provider: `api` as an optional snapshot, and `isHovered` as a field of the slider state. The model does not reproduce what that provider would actually do, which is leave these fields undefined.

## Model

| member | source | states |
|---|---|---|
| MediaSlice.InitialState | features/media/store/media-slice.ts:15-17 | the store starts with nobody playing |
| MediaSlice.Reduce | features/media/store/media-slice.ts:24-26 | after `setCurrentlyPlaying(p)` the slot holds exactly `p`, `null` included, and a non-null `p` owns the slot |
| MediaSlice.SlotHasOneOwner | features/media/store/media-slice.ts:10-12 | two identifiers that both own the slot are the same identifier |
| MediaSlice.LastWriterWins | features/media/store/media-slice.ts:25 | writing `a` and then `b` gives the same state as writing only `b` |
| MediaSlice.ReduceIdempotent | features/media/store/media-slice.ts:25 | writing the same payload twice is the same as writing it once |
| MediaSlice.ReplayKeepsOnlyLast | features/media/store/media-slice.ts:20-28 | after any run of writes, only the last write matters, and an empty run leaves the state unchanged |
| InlineVideo.PlayerId | features/media/components/inline-video.tsx:79 | a player id is the fixed prefix followed by the uuid, which can be recovered from it |
| InlineVideo.PlayerIdInjective | features/media/components/inline-video.tsx:79 | two player ids are equal exactly when their uuids are equal, so distinct uuids give distinct players |
| InlineVideo.Initial | features/media/components/inline-video.tsx:79-95 | a new player is unmounted, not playing, in its first-play state, not loading, with no error, no source and no attempt in flight |
| InlineVideo.Mount | features/media/components/inline-video.tsx:118-121 | the mount effect marks the player mounted and changes nothing else |
| InlineVideo.Resolve | features/media/components/inline-video.tsx:130-211 | for each variant: `url` with a source sets exactly that source, and without one sets the URL error; `youtube` sets the watch URL or its error; `brightcove` without an id sets its error, and with an id starts a new attempt with `loading` on; `none` or no descriptor changes nothing; any other variant sets the unsupported error. The previous attempt is always cancelled, and an earlier error or source is never cleared |
| InlineVideo.Settle | features/media/components/inline-video.tsx:161-184 | a completion writes only while its attempt is active: success sets the returned source, failure sets the Brightcove error, and both end with `loading` off. A completion writes nothing but `src`, `error` and `loading` (and retires the attempt). A completion for an inactive attempt leaves the player unchanged |
| InlineVideo.Unmount | features/media/components/inline-video.tsx:207-210 | unmounting clears the in-flight attempt's flag and nothing else |
| InlineVideo.Play | features/media/components/inline-video.tsx:101-103 | `play` sets the player playing and touches nothing else, the slot included |
| InlineVideo.Pause | features/media/components/inline-video.tsx:105-107 | `pause` stops the player and touches nothing else |
| InlineVideo.SeekTo | features/media/components/inline-video.tsx:109-115 | seeking moves the position only when a media element exists, and is otherwise a no-op |
| InlineVideo.ObserveSlot | features/media/components/inline-video.tsx:213-224 | a player that does not own the slot stops, returns to its first-play state and rewinds to 0 if it has a media element. The owner is left untouched |
| InlineVideo.HandlePlay | features/media/components/inline-video.tsx:232-240 | the `onPlay` callback's action makes this player the slot's owner from any prior state |
| InlineVideo.AspectRatioPadding | features/media/components/inline-video.tsx:68-74 | the padding is always a table value: each known ratio gets its own row, and a missing, empty or unknown ratio gets the default |
| InlineVideo.Render | features/media/components/inline-video.tsx:254-326 | precedence is nothing when unmounted, then the error view, then the loading view when there is no source, then the player. The poster shows exactly when first-play, not playing and the poster-video style hold together |
| InlineVideo.Step | features/media/components/inline-video.tsx:101-252 | every event keeps the player's id and token invariant and never reuses an attempt token |
| InlineVideo.DataChangeCancels | features/media/components/inline-video.tsx:207-210 | a descriptor change cancels the attempt that was in flight |
| InlineVideo.UnmountCancels | features/media/components/inline-video.tsx:207-210 | unmounting cancels the attempt that was in flight |
| InlineVideo.InactiveStaysInactive | features/media/components/inline-video.tsx:130-211 | an attempt that can no longer write stays that way across any later sequence of events. This covers a cancelled attempt and one that already completed |
| InlineVideo.LateCompletionIgnored | features/media/components/inline-video.tsx:164-182 | the completion of an inactive attempt, a cancelled one in particular, changes none of `src`, `error` or `loading` (or anything else) |
| InlineVideo.SupersededAttemptNeverWrites | features/media/components/inline-video.tsx:130-211 | once the descriptor changes, the old attempt's completion writes nothing, whatever happens in between |
| InlineVideo.StaleErrorPersists | features/media/components/inline-video.tsx:138-141 | once an error is set, it remains set after any sequence of events, including a switch to a valid descriptor |
| InlineVideo.ObserveSlotIdempotent | features/media/components/inline-video.tsx:213-224 | running the eviction reaction twice on the same slot value is the same as running it once |
| InlineVideo.FirstPlayNeverCleared | features/media/components/inline-video.tsx:91 | once `isFirstPlay` is set, it stays set after any sequence of events, because only line 222 writes it, and always to true |
| Playback.InitialPage | features/media/components/inline-video.tsx:79 | players made from distinct uuids have distinct ids and start with an empty slot, with nobody playing outside the slot |
| Playback.ObserveAll | features/media/components/inline-video.tsx:213-224 | every player of the page runs its own eviction reaction to the same slot value |
| Playback.Dispatch | features/media/components/inline-video.tsx:85-87 | a slot write leaves the slot equal to the payload and keeps every player's id. The players react only when the slot's value changed |
| Playback.PlayerStarted | features/media/components/inline-video.tsx:232-236 | after a player's media element starts, that player owns the slot |
| Playback.PlayerPlayCalled | features/media/components/inline-video.tsx:227-230 | a poster click makes that player play and leaves the slot and every other player unchanged |
| Playback.QuiescentIsExclusive | features/media/components/inline-video.tsx:213-224 | if ids are distinct and every playing player owns the slot, at most one player plays |
| Playback.PlayerStartedExcludesOthers | features/media/components/inline-video.tsx:213-236 | after player `i` claims the slot from another owner, or from a quiescent page, no player other than `i` is playing |
| Playback.ReclaimDoesNotEvict | features/media/components/inline-video.tsx:213-224 | when the owner re-claims the slot, no eviction reaction runs, so another player that was told to play keeps playing |
| Playback.PlayCallOverlaps | features/media/components/inline-video.tsx:227-236 | a poster click on a non-owner briefly leaves two players playing. Exclusivity comes back once its media element claims the slot |
| SliderProvider.InitialContext | features/slider/components/slider-provider.tsx:34-35 | the provider starts on slide 0 with the animation not paused |
| SliderProvider.SetCurrentSlide | features/slider/components/slider-provider.tsx:34-48 | setting the slide changes the slide only, and the pause flag keeps its value |
| SliderProvider.SetAnimationPaused | features/slider/components/slider-provider.tsx:34-48 | setting the pause flag changes the flag only, and the slide keeps its value |
| SliderProvider.SettersCommute | features/slider/components/slider-provider.tsx:34-35 | the two setters do not interfere: applying them in either order gives the same context |
| SliderProvider.UseSliderContext | features/slider/components/slider-provider.tsx:23-28 | reading the context fails with the provider message exactly when there is no provider, and otherwise returns the provider's value |
| SliderPauseButton.Label | features/slider/components/slider-pause-button.tsx:24 | the label is "Resume" exactly when paused, and "Pause" exactly when not |
| SliderPauseButton.OnClick | features/slider/components/slider-pause-button.tsx:23 | a click negates the pause flag, keeps the slide and makes no library call |
| SliderPauseButton.TwoClicksRestore | features/slider/components/slider-pause-button.tsx:23 | two clicks restore the original context |
| SliderPauseButton.ClickFlipsLabel | features/slider/components/slider-pause-button.tsx:23-24 | every click changes the label |
| SliderNextButton.OnClick | features/slider/components/slider-next-button.tsx:24-29 | with no library, a click does nothing. Otherwise it pauses the animation, keeps the slide and makes exactly one `scrollNext`. In the handler, the pause request precedes the call |
| SliderNextButton.DisabledExactlyWhenInert | features/slider/components/slider-next-button.tsx:24-33 | the button is disabled exactly when a click would have no effect, which is when there is no library |
| SliderPrevButton.OnClick | features/slider/components/slider-prev-button.tsx:24-29 | with no library, a click does nothing. Otherwise it pauses the animation, keeps the slide and makes exactly one `scrollPrev`. In the handler, the pause request precedes the call |
| SliderPrevButton.DisabledExactlyWhenInert | features/slider/components/slider-prev-button.tsx:24-33 | the button is disabled exactly when a click would have no effect, which is when there is no library |
| SliderDots.InitialDots | features/slider/components/slider-dots.tsx:25 | the dots start from an empty snap list |
| SliderDots.Refresh | features/slider/components/slider-dots.tsx:28-45 | when the library appears, and on every `reInit`, the dots take the library's current snap list |
| SliderDots.Render | features/slider/components/slider-dots.tsx:59-76 | nothing renders without the library. Otherwise there is one dot per snap, and dot `i` is active exactly when `i` is the current slide |
| SliderDots.AtMostOneActiveDot | features/slider/components/slider-dots.tsx:70 | no two dots are active at once |
| SliderDots.DotsFollowSnapList | features/slider/components/slider-dots.tsx:33-36 | after a refresh, the number of dots equals the length of the library's snap list |
| SliderDots.OnClick | features/slider/components/slider-dots.tsx:48-57 | with no library, a click does nothing. Otherwise it pauses the animation, keeps the slide and scrolls to exactly the clicked index. In the handler, the pause request precedes the call |
| AppSlider.WithDefaults | features/slider/app-slider.tsx:32 | omitted props default to animation `default`, no loop and no pause on hover, and given props are kept |
| AppSlider.Plugins | features/slider/app-slider.tsx:40-50 | `autoplay` installs exactly one autoplay plugin (delay 3000), `auto-scroll` exactly one auto-scroll plugin (speed 1), and `default` installs none |
| AppSlider.PluginsExclusive | features/slider/app-slider.tsx:40-50 | the two animation plugins are never installed together, and each is present exactly for its own animation type |
| AppSlider.Tallest | features/slider/app-slider.tsx:64 | the result is at least 0, at least every height, and either 0 or one of the heights |
| AppSlider.TallestUnique | features/slider/app-slider.tsx:64 | only one value meets that description, so it is the maximum of the heights and 0 |
| AppSlider.UpdateHeight | features/slider/app-slider.tsx:59-66 | without a viewport element, the height keeps its value. Otherwise it becomes the tallest slide floored at 0, which is 0 when there are no slides |
| AppSlider.ViewportHeight | features/slider/app-slider.tsx:139 | the viewport is `auto` exactly when the stored height is 0, and otherwise uses that height |
| AppSlider.PauseEffect | features/slider/app-slider.tsx:97-128 | before the library is ready, nothing is called. Afterwards, each installed plugin gets exactly one call, and a call is a stop exactly when the animation is paused or hovered with pause-on-hover. Autoplay is resumed with `reset` |
| AppSlider.IntendedPauseEffect | features/slider/app-slider.tsx:109-112 | the corrected effect makes the same decisions as the code, call for call, but resumes autoplay with `play` instead of `reset` |
| AppSlider.PauseDecision | features/slider/app-slider.tsx:106-126 | with the plugin of a non-default animation, exactly one of stop and start is issued, and it is a stop exactly when paused or hovered with pause-on-hover. The start is `reset` for autoplay and `play` for auto-scroll. With no plugin, nothing is issued |
| AppSlider.ApplyPluginCall | features/slider/app-slider.tsx:108-125 | `stop` stops the timer and `play` starts it. `reset` leaves a stopped timer stopped, following the library's documentation |
| AppSlider.HoverIgnoredWithoutPauseOnHover | features/slider/app-slider.tsx:102-126 | without pause-on-hover, hovering never changes the calls |
| AppSlider.ReactAsWritten | features/slider/app-slider.tsx:97-128 | as written, the effect stops an installed plugin whenever a pause trigger holds and keeps auto-scroll in step. When the triggers clear, it leaves the autoplay timer as it was |
| AppSlider.React | features/slider/app-slider.tsx:97-128 | with the corrected resume call, an installed plugin's timer runs exactly when the animation is not effectively paused, and nothing else changes |
| AppSlider.ReactIdempotent | features/slider/app-slider.tsx:97-128 | a redundant re-run of the pause effect changes nothing, both as written and corrected |
| AppSlider.Handle | features/slider/app-slider.tsx:68-137 | when the library appears, the current slide becomes the library's selected snap, the height is recomputed and the plugin starts, and nothing else changes (the pause flag in particular is kept). A `select` event sets the current slide to the selected snap and recomputes the height, and changes nothing else; before the library exists it changes nothing. Mouse enter and leave change only the hover flag. A resize changes only the height, and the context's effects change only the context. No event changes the configuration |
| AppSlider.ApplyPluginCalls | features/slider/app-slider.tsx:104-126 | a sequence of plugin calls acts call by call: the last call decides, applied to the state the earlier ones leave, and no calls leave the timer as it was |
| AppSlider.StepAsWritten | features/slider/app-slider.tsx:97-128 | as written, after any event, an installed plugin never runs while a pause trigger holds |
| AppSlider.Step | features/slider/app-slider.tsx:97-128 | with the corrected resume call, after any event, the timer is in step with the pause triggers |
| AppSlider.InitialSlider | features/slider/app-slider.tsx:32-37 | a new slider has the defaulted configuration, no library, no hover, height 0 and an `auto` viewport |
| AppSlider.AlwaysInSync | features/slider/app-slider.tsx:97-128 | with the corrected resume call, across any run of events, the timer stays in step with the pause triggers, and the configuration stays fixed. Being in step after a non-empty run follows from the last event alone |
| AppSlider.AutoplayStaysStopped | features/slider/app-slider.tsx:101-112 | as written, once the autoplay timer is stopped, no run of events short of a new library initialisation starts it again |
| AppSlider.HeightNeverNegative | features/slider/app-slider.tsx:59-66 | across any run of events, the viewport height is never negative |
| SliderSystem.ManualNavigationStopsAnimation | features/slider/components/slider-next-button.tsx:24-29 | a next, previous or dot click on a carousel with an animation leaves it paused and its timer stopped, without changing the current slide |
| SliderSystem.ResumeRestartsUnlessHovered | features/slider/app-slider.tsx:106-126 | with the corrected resume call, resuming with the pause button restarts the animation exactly when the hover trigger does not hold |
| SliderSystem.PauseAlwaysStops | features/slider/app-slider.tsx:106-108 | pausing with the pause button always stops an installed animation |
| SliderSystem.AutoplayDoesNotResume | features/slider/app-slider.tsx:109-112 | as written, after pause then resume on an autoplay carousel, nothing pauses the animation, yet its timer stays stopped |
| SliderSystem.PauseResumeRestarts | features/slider/app-slider.tsx:106-126 | with the corrected call, the same pause stops any installed animation, and the resume restarts it |
| SliderSystem.CarouselStep | features/slider/components/slider-dots.tsx:28-45 | the dots take the library's snap list when the library appears and on every `reInit`. Other slider events leave them unchanged. On `reInit` the model updates only the slider's view of the library and keeps the timer as it was; the pause effect does not re-run, since its dependencies (features/slider/app-slider.tsx:128) are unchanged |
| SliderSystem.DotsFollowLibrary | features/slider/components/slider-dots.tsx:33-36 | right after the library appears or re-initialises, there is one dot per snap it reports |
| SliderSystem.DotsAlwaysInStep | features/slider/components/slider-dots.tsx:28-65 | across any run of events, the dots match the library's current snap list, and there are none before the library exists |

## Left out

- The Brightcove request is left out. Its outcome is a parameter: `Fetched(src)` or `FetchFailed`. A body without `src` is modelled as `Fetched("")`, which renders as the loading state, as an absent `src` does.
- The server route `app/api/media/get-brightcove-video/[videoId]/route.ts` is left out. It is outside the modelled core, and the player only sees its outcome.
- Parts of the source are modelled as opaque values or records: the ReactPlayer element, the carousel library's scrolling, snap computation and plugin timers, and uuid generation. Player ids are assumed to come from distinct uuids (`Playback.InitialPage`). `AppSlider.ApplyPluginCalls` records only whether a plugin's timer runs.
- Whether the media element really pauses when `isPlaying` becomes false depends on ReactPlayer. The model tracks only the component's own state.
- DOM measurement is a parameter: the viewport element and the slide heights are `Option<seq<int>>`. Heights are integers; `NaN` and fractional pixels are not modelled.
- The media position is a `real` number of seconds. The actual time is owned by the media element.
- Event listener registration is not modelled, for `select`, `reInit` and window `resize`. Each listener becomes an event: `Selected`, `Resized` and `SliderSystem.ReInit`.
- The `console.log`/`console.error` calls are not modelled, and neither are the `onPlay`/`onPause` props' callbacks: they have no effect on state.
- JSX structure, class names, styles and the poster's own aspect ratio are not modelled; only the choice of view and the padding value are.
- InlineVideo.AspectRatioPadding: a ratio equal to an inherited object property name (for example `toString`) is not modelled. The source's `in` test would accept such a name; the model treats it as unknown.
- `sliderContext.addMediaId` and the media-slider context are left out. `InlineVideo` calls `addMediaId` (features/media/components/inline-video.tsx:123-128), but the set it adds to, and any use of that set, are not part of this model.
- The slider context fields `emblaApi`, `isHovered` and `setIsHovered` are supplied from outside the provider, because the provider does not define them.
- Pause-on-drag and pause-on-playing-media are left out: nothing in the files modelled implements them.
- A remount is modelled as a fresh `InlineVideo.Initial` player. The model does not carry state from an unmounted player to a new one.
- AppSlider.Handle: props are fixed for a slider's lifetime. The one use in this model's source files, containers/section/components/hero8.tsx:48, passes literal props (`animation="auto-scroll"` and `loop`). A change of props is not modelled. The plugin list is rebuilt on every render (features/slider/app-slider.tsx:40-50), whether or not props change. A change of `loop` or `animation` reaches the library through its options and plugins. A change of `pauseOnHover` goes to neither (line 53); it only re-runs the pause effect through its dependency list (line 128). So "no event changes the configuration" is a property of the model's events, not a promise of the component.
- AppSlider.AlwaysInSync: "the configuration stays fixed" follows from the same restriction on props.
- AppSlider.ApplyPluginCall: the plugins' timers are part of the library, which is not part of this model. Three rules come from the Embla Carousel Autoplay and AutoScroll documentation: `stop`, `play` and `reset` as stated, and an installed plugin starting when the library initialises (`playOnInit`). Restarts after user interaction (`stopOnInteraction: false`) are not modelled.
- SliderProvider.PausedBeforeEachCall: this states the order of statements in a click handler, not the state the library sees. `setAnimationPaused(true)` is a React state setter and takes effect only after the handler returns. So `scrollNext`, `scrollPrev` or `scrollTo` runs while the plugin is still running, and the pause effect (features/slider/app-slider.tsx:106-108, 120-122) stops it only after the next render. `SliderSystem.ManualNavigationStopsAnimation` speaks of the state after that effect.
- SliderSystem.CarouselStep: the library re-initialises its plugins on `reInit`, and it also re-initialises by itself when the container or slides resize. With `playOnInit`, its default, the plugin then starts again, as `AppSlider.Handle` assumes for the library's first initialisation. The model does not model that restart: on `reInit` it keeps the timer as it was. Under the library's rule, a paused carousel would move again after a `reInit` while its button still reads "Resume", since the pause effect does not re-run. That rests on library behaviour not shown in the files modelled, and the model does not claim it either way.

## Findings

| source | as written | input that shows it | evidently intended | confidence | as-written member | corrected member |
|---|---|---|---|---|---|---|
| features/slider/app-slider.tsx:109-112 | when no pause trigger holds, autoplay is resumed with `autoplay.reset()`, which does nothing to a stopped timer | animation `autoplay` and no hover: click the pause button twice (pause, then resume) | resume the timer with `autoplay.play()`, as the auto-scroll branch does with `autoScroll.play()` | medium; not executed; rests on the library's documented `reset()` behaviour | SliderSystem.AutoplayDoesNotResume | SliderSystem.PauseResumeRestarts |

=== FILE: app_slider.dfy ===
/** The carousel itself: its configuration, the mutually exclusive animation plugin, the
    viewport-height rule, the tracking of the selected slide and the decision to stop or
    restart the animation. */
module AppSlider {
  import opened Base
  import opened Embla
  import opened SliderProvider

  // ---------------------------------------------------------------------------
  // Configuration and plugins
  // ---------------------------------------------------------------------------

  datatype AnimationType = Default | Autoplay | AutoScroll

  /** The props as a caller passes them; every one is optional. */
  datatype SliderProps = SliderProps(animation: Option<AnimationType>, loop: Option<bool>, pauseOnHover: Option<bool>)

  datatype Config = Config(animation: AnimationType, loop: bool, pauseOnHover: bool)

  /** Omitted props take the defaults `default`, no loop, no pause on hover. */
  function WithDefaults(props: SliderProps): (c: Config)
    ensures props.animation.None? ==> c.animation == Default
    ensures props.loop.None? ==> !c.loop
    ensures props.pauseOnHover.None? ==> !c.pauseOnHover
    ensures props.animation.Some? ==> c.animation == props.animation.value
    ensures props.loop.Some? ==> c.loop == props.loop.value
    ensures props.pauseOnHover.Some? ==> c.pauseOnHover == props.pauseOnHover.value
  {
    Config(
      match props.animation case None => Default case Some(a) => a,
      match props.loop case None => false case Some(b) => b,
      match props.pauseOnHover case None => false case Some(b) => b)
  }

  const AutoplayDelay: nat := 3000
  const AutoScrollSpeed: nat := 1

  datatype Plugin = AutoplayPlugin(delay: nat, stopOnInteraction: bool) | AutoScrollPlugin(speed: nat, stopOnInteraction: bool)

  predicate HasAutoplay(plugins: seq<Plugin>)
  {
    exists k :: 0 <= k < |plugins| && plugins[k].AutoplayPlugin?
  }

  predicate HasAutoScroll(plugins: seq<Plugin>)
  {
    exists k :: 0 <= k < |plugins| && plugins[k].AutoScrollPlugin?
  }

  /** The plugin list handed to the library: at most one plugin, chosen by the animation
      type. */
  function Plugins(animation: AnimationType): (ps: seq<Plugin>)
    ensures |ps| <= 1
    ensures animation == Default <==> |ps| == 0
    ensures animation == Autoplay <==> |ps| == 1 && ps[0] == AutoplayPlugin(AutoplayDelay, false)
    ensures animation == AutoScroll <==> |ps| == 1 && ps[0] == AutoScrollPlugin(AutoScrollSpeed, false)
  {
    match animation
    case Autoplay => [AutoplayPlugin(AutoplayDelay, false)]
    case AutoScroll => [AutoScrollPlugin(AutoScrollSpeed, false)]
    case Default => []
  }

  /** The two animation plugins are never installed together. */
  lemma PluginsExclusive(animation: AnimationType)
    ensures !(HasAutoplay(Plugins(animation)) && HasAutoScroll(Plugins(animation)))
    ensures HasAutoplay(Plugins(animation)) <==> animation == Autoplay
    ensures HasAutoScroll(Plugins(animation)) <==> animation == AutoScroll
  {
  }

  // ---------------------------------------------------------------------------
  // Viewport height
  // ---------------------------------------------------------------------------

  /** `t` is the tallest of the heights, floored at zero. */
  predicate IsTallest(heights: seq<int>, t: int)
  {
    && t >= 0
    && (forall i :: 0 <= i < |heights| ==> heights[i] <= t)
    && (t == 0 || t in heights)
  }

  /** The maximum of the slide heights and zero. */
  function Tallest(heights: seq<int>): (t: int)
    ensures IsTallest(heights, t)
    decreases |heights|
  {
    if |heights| == 0 then 0
    else
      var rest := Tallest(heights[..|heights| - 1]);
      var last := heights[|heights| - 1];
      assert heights == heights[..|heights| - 1] + [last];
      if last > rest then last else rest
  }

  /** There is only one tallest height. */
  lemma TallestUnique(heights: seq<int>, a: int, b: int)
    requires IsTallest(heights, a) && IsTallest(heights, b)
    ensures a == b
  {
  }

  /** The recomputation of the viewport height: without a viewport element nothing
      changes; otherwise the tallest measured slide, or zero without slides. */
  function UpdateHeight(maxHeight: int, measured: Option<seq<int>>): (r: int)
    ensures measured.None? ==> r == maxHeight
    ensures measured.Some? ==> IsTallest(measured.value, r)
    ensures measured.Some? && |measured.value| == 0 ==> r == 0
  {
    match measured
    case None => maxHeight
    case Some(hs) => Tallest(hs)
  }

  datatype Height = Pixels(px: int) | Auto

  /** The viewport's height style: the stored height unless it is zero. */
  function ViewportHeight(maxHeight: int): (h: Height)
    ensures h == Auto <==> maxHeight == 0
    ensures h.Pixels? ==> h.px == maxHeight
  {
    if maxHeight == 0 then Auto else Pixels(maxHeight)
  }

  // ---------------------------------------------------------------------------
  // Pause decision
  // ---------------------------------------------------------------------------

  /** The animation must be stopped while explicitly paused or, when enabled, while hovered. */
  predicate ShouldStop(animationPaused: bool, pauseOnHover: bool, isHovered: bool)
  {
    animationPaused || (pauseOnHover && isHovered)
  }

  /** Calls on the installed plugins. The code stops autoplay or `reset`s it, and stops
      or `play`s auto-scroll; `PlayAutoplay` is the call the corrected model uses to
      resume autoplay. */
  datatype PluginCall = StopAutoplay | ResetAutoplay | PlayAutoplay | StopAutoScroll | PlayAutoScroll

  predicate IsStop(c: PluginCall)
  {
    c.StopAutoplay? || c.StopAutoScroll?
  }

  /** The calls the pause effect makes on one plugin. */
  function Toggle(stop: PluginCall, start: PluginCall, animationPaused: bool, pauseOnHover: bool, isHovered: bool): seq<PluginCall>
  {
    if ShouldStop(animationPaused, pauseOnHover, isHovered) then [stop]
    else if !animationPaused then [start]
    else []
  }

  /** The pause effect as written: nothing before the library is available; then, for
      each installed plugin, exactly one call, a stop exactly when the animation should
      stop. Autoplay is resumed with `reset`. */
  function PauseEffect(apiReady: bool, plugins: seq<Plugin>, animationPaused: bool, pauseOnHover: bool, isHovered: bool): (calls: seq<PluginCall>)
    ensures !apiReady ==> calls == []
    ensures apiReady ==> |calls| == (if HasAutoplay(plugins) then 1 else 0) + (if HasAutoScroll(plugins) then 1 else 0)
    ensures forall k :: 0 <= k < |calls| ==> (IsStop(calls[k]) <==> ShouldStop(animationPaused, pauseOnHover, isHovered))
    ensures forall k :: 0 <= k < |calls| && (calls[k].StopAutoplay? || calls[k].ResetAutoplay?) ==> HasAutoplay(plugins)
    ensures forall k :: 0 <= k < |calls| && (calls[k].StopAutoScroll? || calls[k].PlayAutoScroll?) ==> HasAutoScroll(plugins)
    ensures forall k :: 0 <= k < |calls| ==> !calls[k].PlayAutoplay?
  {
    if !apiReady then []
    else
      (if HasAutoplay(plugins) then Toggle(StopAutoplay, ResetAutoplay, animationPaused, pauseOnHover, isHovered) else [])
      + (if HasAutoScroll(plugins) then Toggle(StopAutoScroll, PlayAutoScroll, animationPaused, pauseOnHover, isHovered) else [])
  }

  /** The corrected pause effect: the same decisions, but autoplay is resumed with `play`,
      as auto-scroll already is. */
  function IntendedPauseEffect(apiReady: bool, plugins: seq<Plugin>, animationPaused: bool, pauseOnHover: bool, isHovered: bool): (calls: seq<PluginCall>)
    ensures var written := PauseEffect(apiReady, plugins, animationPaused, pauseOnHover, isHovered);
            && |calls| == |written|
            && (forall k :: 0 <= k < |calls| ==> (IsStop(calls[k]) <==> IsStop(written[k])))
            && (forall k :: 0 <= k < |calls| ==> (calls[k].PlayAutoplay? <==> written[k].ResetAutoplay?))
            && (forall k :: 0 <= k < |calls| && !written[k].ResetAutoplay? ==> calls[k] == written[k])
    ensures forall k :: 0 <= k < |calls| ==> !calls[k].ResetAutoplay?
  {
    var written := PauseEffect(apiReady, plugins, animationPaused, pauseOnHover, isHovered);
    seq(|written|, k requires 0 <= k < |written| => if written[k].ResetAutoplay? then PlayAutoplay else written[k])
  }

  /** With the plugin of a non-default animation installed, exactly one of stop and start
      is issued, the stop exactly when the animation should stop; with no plugin, nothing. */
  lemma PauseDecision(animation: AnimationType, animationPaused: bool, pauseOnHover: bool, isHovered: bool)
    ensures var calls := PauseEffect(true, Plugins(animation), animationPaused, pauseOnHover, isHovered);
            && (animation == Default ==> calls == [])
            && (animation != Default ==> |calls| == 1 && (IsStop(calls[0]) <==> ShouldStop(animationPaused, pauseOnHover, isHovered)))
            && (animation == Autoplay && !ShouldStop(animationPaused, pauseOnHover, isHovered) ==> calls == [ResetAutoplay])
            && (animation == AutoScroll && !ShouldStop(animationPaused, pauseOnHover, isHovered) ==> calls == [PlayAutoScroll])
  {
    PluginsExclusive(animation);
  }

  /** Without pause-on-hover, hovering has no influence on the decision. */
  lemma HoverIgnoredWithoutPauseOnHover(apiReady: bool, plugins: seq<Plugin>, animationPaused: bool, h1: bool, h2: bool)
    ensures PauseEffect(apiReady, plugins, animationPaused, false, h1) == PauseEffect(apiReady, plugins, animationPaused, false, h2)
  {
  }

  /** Whether a plugin's timer runs after one call. Following the Embla Carousel Autoplay
      plugin's documentation, `reset` restarts a running timer and does nothing to a
      stopped one; `play` starts the timer and `stop` stops it. */
  function ApplyPluginCall(running: bool, c: PluginCall): (r: bool)
    ensures IsStop(c) ==> !r
    ensures c.PlayAutoplay? || c.PlayAutoScroll? ==> r
    ensures c.ResetAutoplay? ==> r == running
  {
    match c
    case StopAutoplay => false
    case StopAutoScroll => false
    case ResetAutoplay => running
    case PlayAutoplay => true
    case PlayAutoScroll => true
  }

  /** Whether the plugin's timer runs after a sequence of calls, first to last: the last
      call decides, applied to the state the earlier calls leave. */
  function ApplyPluginCalls(running: bool, calls: seq<PluginCall>): (r: bool)
    ensures |calls| == 0 ==> r == running
    ensures |calls| > 0 ==> r == ApplyPluginCall(ApplyPluginCalls(running, calls[..|calls| - 1]), calls[|calls| - 1])
    decreases |calls|
  {
    if |calls| == 0 then running
    else
      var rest := calls[1..];
      assert |rest| > 0 ==> calls[..|calls| - 1][1..] == rest[..|rest| - 1];
      ApplyPluginCalls(ApplyPluginCall(running, calls[0]), rest)
  }

  // ---------------------------------------------------------------------------
  // Slider state and events
  // ---------------------------------------------------------------------------

  /** One carousel with its context. `isHovered` is supplied by the context; `running`
      is whether the installed plugin's timer runs. */
  datatype SliderState = SliderState(
    config: Config,
    api: Option<EmblaApi>,
    ctx: SliderContext,
    isHovered: bool,
    maxHeight: int,
    running: bool)

  datatype SliderEvent =
    | ApiReady(api: EmblaApi, measured: Option<seq<int>>)
    | Selected(snap: nat, measured: Option<seq<int>>)
    | Resized(measured: Option<seq<int>>)
    | MouseEnter
    | MouseLeave
    | ContextEffects(effects: seq<Effect>)

  /** The animation is effectively stopped. */
  predicate EffectivelyPaused(s: SliderState)
  {
    ShouldStop(s.ctx.animationPaused, s.config.pauseOnHover, s.isHovered)
  }

  /** The installed plugin's timer runs exactly when the animation is not effectively paused. */
  predicate InSync(s: SliderState)
  {
    s.api.Some? && s.config.animation != Default ==> s.running == !EffectivelyPaused(s)
  }

  /** The pause effect as written, run after every change of its inputs. It always stops
      the animation when a trigger holds, keeps auto-scroll in step, but leaves a stopped
      autoplay timer stopped when the triggers clear. */
  function ReactAsWritten(s: SliderState): (r: SliderState)
    ensures r == s.(running := r.running)
    ensures s.api.Some? && s.config.animation != Default && EffectivelyPaused(s) ==> !r.running
    ensures s.api.Some? && s.config.animation == AutoScroll ==> r.running == !EffectivelyPaused(s)
    ensures s.api.Some? && s.config.animation == Autoplay && !EffectivelyPaused(s) ==> r.running == s.running
    ensures s.api.None? || s.config.animation == Default ==> r == s
  {
    var calls := PauseEffect(s.api.Some?, Plugins(s.config.animation), s.ctx.animationPaused, s.config.pauseOnHover, s.isHovered);
    PauseDecision(s.config.animation, s.ctx.animationPaused, s.config.pauseOnHover, s.isHovered);
    s.(running := ApplyPluginCalls(s.running, calls))
  }

  /** The corrected pause effect: the timer runs exactly when the animation is not
      effectively paused. */
  function React(s: SliderState): (r: SliderState)
    ensures InSync(r)
    ensures r == s.(running := r.running)
  {
    var calls := IntendedPauseEffect(s.api.Some?, Plugins(s.config.animation), s.ctx.animationPaused, s.config.pauseOnHover, s.isHovered);
    PauseDecision(s.config.animation, s.ctx.animationPaused, s.config.pauseOnHover, s.isHovered);
    s.(running := ApplyPluginCalls(s.running, calls))
  }

  /** Running the pause effect again changes nothing: redundant stops and starts are
      harmless. */
  lemma ReactIdempotent(s: SliderState)
    ensures React(React(s)) == React(s)
    ensures ReactAsWritten(ReactAsWritten(s)) == ReactAsWritten(s)
  {
  }

  /** The handlers, before the pause effect re-runs. The library starts an installed
      plugin when it initialises. */
  function Handle(s: SliderState, e: SliderEvent): (r: SliderState)
    ensures r.config == s.config
    ensures e.ApiReady? ==> r.api == Some(e.api) && r.ctx.currentSlide == e.api.selectedSnap && r.running
    ensures e.Selected? && s.api.Some? ==> r.ctx.currentSlide == e.snap
    ensures e.MouseEnter? ==> r.isHovered
    ensures e.MouseLeave? ==> !r.isHovered
    ensures !e.MouseEnter? && !e.MouseLeave? ==> r.isHovered == s.isHovered
    ensures e.ContextEffects? ==> r.ctx == RunEffects(s.ctx, e.effects)
    ensures e.Resized? ==> r.maxHeight == UpdateHeight(s.maxHeight, e.measured) && r.ctx == s.ctx
    ensures !e.ApiReady? ==> r.api == s.api && r.running == s.running
    ensures e.ApiReady? || (e.Selected? && s.api.Some?) ==> r.maxHeight == UpdateHeight(s.maxHeight, e.measured)
    ensures e.Selected? && s.api.None? ==> r == s
    ensures e.Selected? && s.api.Some? ==> r == s.(maxHeight := UpdateHeight(s.maxHeight, e.measured), ctx := SetCurrentSlide(s.ctx, e.snap))
    ensures e.ApiReady? ==> r == s.(api := Some(e.api), maxHeight := UpdateHeight(s.maxHeight, e.measured), ctx := SetCurrentSlide(s.ctx, e.api.selectedSnap), running := true)
    ensures e.MouseEnter? || e.MouseLeave? ==> r == s.(isHovered := e.MouseEnter?)
    ensures e.ContextEffects? ==> r == s.(ctx := RunEffects(s.ctx, e.effects))
    ensures e.Resized? ==> r == s.(maxHeight := UpdateHeight(s.maxHeight, e.measured))
  {
    match e
    case ApiReady(api, m) =>
      s.(api := Some(api), maxHeight := UpdateHeight(s.maxHeight, m), ctx := SetCurrentSlide(s.ctx, api.selectedSnap), running := true)
    case Selected(snap, m) =>
      if s.api.None? then s
      else s.(maxHeight := UpdateHeight(s.maxHeight, m), ctx := SetCurrentSlide(s.ctx, snap))
    case Resized(m) => s.(maxHeight := UpdateHeight(s.maxHeight, m))
    case MouseEnter => s.(isHovered := true)
    case MouseLeave => s.(isHovered := false)
    case ContextEffects(effects) => s.(ctx := RunEffects(s.ctx, effects))
  }

  /** One event followed by the pause effect as written. */
  function StepAsWritten(s: SliderState, e: SliderEvent): (r: SliderState)
    ensures r.api.Some? && r.config.animation != Default && EffectivelyPaused(r) ==> !r.running
  {
    ReactAsWritten(Handle(s, e))
  }

  /** One event followed by the corrected pause effect. */
  function Step(s: SliderState, e: SliderEvent): (r: SliderState)
    ensures InSync(r)
  {
    React(Handle(s, e))
  }

  /** A slider as first rendered: context from the provider, library not yet available. */
  function InitialSlider(props: SliderProps, ctx: SliderContext): (s: SliderState)
    ensures s.config == WithDefaults(props) && s.api.None? && !s.isHovered && s.maxHeight == 0
    ensures ViewportHeight(s.maxHeight) == Auto
  {
    SliderState(WithDefaults(props), None, ctx, false, 0, false)
  }

  function RunSlider(s: SliderState, events: seq<SliderEvent>): SliderState
    decreases |events|
  {
    if |events| == 0 then s else RunSlider(Step(s, events[0]), events[1..])
  }

  /** Across any run of events the timer is in step with the pause triggers, and the
      configuration never changes. Being in step does not depend on the state before an
      event: it is `React`'s postcondition applied to the last event, and `InSync(s)` is
      needed only for the empty run. */
  lemma {:induction false} AlwaysInSync(s: SliderState, events: seq<SliderEvent>)
    requires InSync(s)
    ensures InSync(RunSlider(s, events)) && RunSlider(s, events).config == s.config
    decreases |events|
  {
    if |events| > 0 {
      AlwaysInSync(Step(s, events[0]), events[1..]);
    }
  }

  function RunSliderAsWritten(s: SliderState, events: seq<SliderEvent>): SliderState
    decreases |events|
  {
    if |events| == 0 then s else RunSliderAsWritten(StepAsWritten(s, events[0]), events[1..])
  }

  /** As written, once the autoplay timer is stopped it stays stopped, whatever the pause
      button, hover or navigation do, until the library initialises again. */
  lemma {:induction false} AutoplayStaysStopped(s: SliderState, events: seq<SliderEvent>)
    requires s.config.animation == Autoplay && !s.running
    requires forall k :: 0 <= k < |events| ==> !events[k].ApiReady?
    ensures !RunSliderAsWritten(s, events).running
    decreases |events|
  {
    if |events| > 0 {
      var h := Handle(s, events[0]);
      assert !StepAsWritten(s, events[0]).running by {
        assert !h.running && h.config.animation == Autoplay;
      }
      AutoplayStaysStopped(StepAsWritten(s, events[0]), events[1..]);
    }
  }

  /** The viewport height is never negative after any run of events. */
  lemma {:induction false} HeightNeverNegative(s: SliderState, events: seq<SliderEvent>)
    requires s.maxHeight >= 0
    ensures RunSlider(s, events).maxHeight >= 0
    decreases |events|
  {
    if |events| > 0 {
      var q := Step(s, events[0]);
      assert q.maxHeight >= 0 by {
        match events[0]
        case ApiReady(a, m) =>
        case Selected(n, m) =>
        case Resized(m) =>
        case MouseEnter =>
        case MouseLeave =>
        case ContextEffects(es) =>
      }
      HeightNeverNegative(q, events[1..]);
    }
  }
}

=== FILE: base.dfy ===
/** Shapes shared by every module of the model: a nullable value and an outcome that is
    either a value or an error message (what the source expresses with `T | null` and
    with a thrown `Error`). */
module Base {

  /** A value that may be absent (`null` or `undefined` in the source). */
  datatype Option<+T> = None | Some(value: T)

  /** Either a value or the message of the error that was thrown instead. */
  datatype Result<+T> = Ok(value: T) | Err(message: string)
}

=== FILE: embla.dfy ===
/** The boundary to the carousel library. Its scroll engine, timers and snap computation
    are not modelled: an api value is a snapshot of what the library reports, and calls
    into it are recorded, not executed. */
module Embla {

  /** What the library reports: its scroll-snap list and the selected snap's index. */
  datatype EmblaApi = EmblaApi(scrollSnaps: seq<real>, selectedSnap: nat)

  /** Navigation requests made to the library. */
  datatype EmblaCall = ScrollNext | ScrollPrev | ScrollTo(index: int)
}

=== FILE: inline_video.dfy ===
/** One inline video player: the resolution of its descriptor into a playable source,
    its reaction to the shared playback slot, its imperative controls and the choice of
    what it renders. Each React effect is restated as a named handler over an immutable
    player record. */
module InlineVideo {
  import opened Base
  import MediaSlice

  // ---------------------------------------------------------------------------
  // Identity
  // ---------------------------------------------------------------------------

  const IdPrefix: string := "video-player-"

  /** The identifier a player takes once, at mount, from a fresh uuid. */
  function PlayerId(uuid: string): (id: string)
    ensures |id| == |IdPrefix| + |uuid|
    ensures id[..|IdPrefix|] == IdPrefix && id[|IdPrefix|..] == uuid
  {
    IdPrefix + uuid
  }

  /** Distinct uuids give distinct player identifiers, and conversely. */
  lemma PlayerIdInjective(u: string, v: string)
    ensures PlayerId(u) == PlayerId(v) <==> u == v
  {
  }

  // ---------------------------------------------------------------------------
  // Descriptor
  // ---------------------------------------------------------------------------

  /** A variant tag that none of the known branches matches (a missing tag is the empty
      string). */
  type UnknownTag = t: string | t != "none" && t != "url" && t != "brightcove" && t != "youtube" witness ""

  /** The variant-tagged part of the descriptor. A missing `src` or `id` is the empty
      string; any tag other than the four known ones is `Unrecognised`. */
  datatype Variant =
    | NoVideo
    | Url(src: string)
    | Brightcove(id: string)
    | YouTube(id: string)
    | Unrecognised(tag: UnknownTag)

  /** The descriptor handed to a player, with its display hints. */
  datatype VideoData = VideoData(variant: Variant, aspectRatio: Option<string>, thumbnailStyle: Option<string>)

  const NoUrlMessage: string := "No video source URL provided."
  const NoBrightcoveIdMessage: string := "No Brightcove video ID provided."
  const NoYouTubeIdMessage: string := "No YouTube video ID provided."
  const UnsupportedMessage: string := "Unsupported video variant."
  const BrightcoveFailedMessage: string := "Unable to load Brightcove video."
  const YouTubeWatchPrefix: string := "https://www.youtube.com/watch?v="
  const PosterVideoStyle: string := "posterVideo"

  // ---------------------------------------------------------------------------
  // Player state
  // ---------------------------------------------------------------------------

  /** The state of one player. `position` is the media element's current time.
      `active` names the Brightcove attempt whose activity flag is still set and whose
      request is still in flight; `issued` counts the attempts started so far, so every
      attempt has its own token. */
  datatype Player = Player(
    id: string,
    data: Option<VideoData>,
    isMounted: bool,
    error: Option<string>,
    isFirstPlay: bool,
    isPlaying: bool,
    loading: bool,
    src: Option<string>,
    position: real,
    active: Option<nat>,
    issued: nat)

  /** Only an already issued attempt can be the active one. */
  predicate Valid(p: Player)
  {
    p.active.Some? ==> p.active.value < p.issued
  }

  /** The JavaScript truthiness of an optional string: present and non-empty. */
  predicate Truthy(s: Option<string>)
  {
    s.Some? && s.value != ""
  }

  /** The underlying media element exists exactly when the player view is rendered. */
  predicate HasMediaElement(p: Player)
  {
    p.isMounted && !Truthy(p.error) && Truthy(p.src)
  }

  /** A freshly created player, before its first effects have run. */
  function Initial(uuid: string): (p: Player)
    ensures p.id == PlayerId(uuid) && Valid(p)
    ensures !p.isMounted && !p.isPlaying && p.isFirstPlay && !p.loading
    ensures p.error == None && p.src == None && p.active == None
  {
    Player(PlayerId(uuid), None, false, None, true, false, false, None, 0.0, None, 0)
  }

  /** The effect that runs once after the first render. */
  function Mount(p: Player): (r: Player)
    ensures r.isMounted
    ensures r == p.(isMounted := r.isMounted)
  {
    p.(isMounted := true)
  }

  // ---------------------------------------------------------------------------
  // Resolution of the descriptor
  // ---------------------------------------------------------------------------

  /** True when resolving `data` starts an asynchronous Brightcove request. */
  predicate StartsFetch(data: Option<VideoData>)
  {
    data.Some? && data.value.variant.Brightcove? && data.value.variant.id != ""
  }

  /** The resolution effect, re-run whenever the descriptor changes. The previous run's
      cleanup clears the previous attempt's flag first. Only a Brightcove descriptor with
      an id starts a new attempt. No branch ever clears an earlier `error` or `src`. */
  function Resolve(p: Player, data: Option<VideoData>): (r: Player)
    requires Valid(p)
    ensures Valid(r) && r.data == data
    ensures r.id == p.id && r.isMounted == p.isMounted && r.isPlaying == p.isPlaying
    ensures r.isFirstPlay == p.isFirstPlay && r.position == p.position
    // cancellation
    ensures p.active.Some? ==> r.active != p.active
    ensures StartsFetch(data) ==> r.active == Some(p.issued) && r.issued == p.issued + 1
    ensures !StartsFetch(data) ==> r.active == None && r.issued == p.issued
    // nothing is cleared
    ensures p.error.Some? ==> r.error.Some?
    ensures p.src.Some? ==> r.src.Some?
    ensures !StartsFetch(data) ==> r.loading == p.loading
    // no descriptor, or variant `none`: no state change
    ensures (data.None? || data.value.variant.NoVideo?) ==> r.error == p.error && r.src == p.src
    // url
    ensures data.Some? && data.value.variant.Url? && data.value.variant.src != "" ==>
              r.src == Some(data.value.variant.src) && r.error == p.error
    ensures data.Some? && data.value.variant.Url? && data.value.variant.src == "" ==>
              r.error == Some(NoUrlMessage) && r.src == p.src
    // youtube
    ensures data.Some? && data.value.variant.YouTube? && data.value.variant.id != "" ==>
              r.src == Some(YouTubeWatchPrefix + data.value.variant.id) && r.error == p.error
    ensures data.Some? && data.value.variant.YouTube? && data.value.variant.id == "" ==>
              r.error == Some(NoYouTubeIdMessage) && r.src == p.src
    // brightcove
    ensures data.Some? && data.value.variant.Brightcove? && data.value.variant.id == "" ==>
              r.error == Some(NoBrightcoveIdMessage) && r.src == p.src
    ensures StartsFetch(data) ==> r.loading && r.error == p.error && r.src == p.src
    // anything else
    ensures data.Some? && data.value.variant.Unrecognised? ==>
              r.error == Some(UnsupportedMessage) && r.src == p.src
  {
    var q := p.(data := data, active := None);
    if data.None? then q
    else
      match data.value.variant
      case Url(s) =>
        if s == "" then q.(error := Some(NoUrlMessage)) else q.(src := Some(s))
      case Brightcove(id) =>
        if id == "" then q.(error := Some(NoBrightcoveIdMessage))
        else q.(loading := true, active := Some(p.issued), issued := p.issued + 1)
      case YouTube(id) =>
        if id == "" then q.(error := Some(NoYouTubeIdMessage))
        else q.(src := Some(YouTubeWatchPrefix + id))
      case NoVideo => q
      case Unrecognised(_) => q.(error := Some(UnsupportedMessage))
  }

  /** How a Brightcove request ends: a parsed body carrying `src`, or any failure (a
      non-ok response, a network error, an unparsable body). A body without `src` is
      `Fetched("")`. */
  datatype FetchOutcome = Fetched(src: string) | FetchFailed

  /** Completion of attempt `attempt`. Writes happen only while that attempt is still the
      active one; they always end with `loading` false. */
  function Settle(p: Player, attempt: nat, outcome: FetchOutcome): (r: Player)
    requires Valid(p)
    ensures Valid(r) && r.issued == p.issued
    ensures p.active != Some(attempt) ==> r == p
    ensures p.active == Some(attempt) ==> !r.loading && r.active == None
    ensures r == p.(src := r.src, error := r.error, loading := r.loading, active := r.active)
    ensures p.active == Some(attempt) && outcome.Fetched? ==> r.src == Some(outcome.src) && r.error == p.error
    ensures p.active == Some(attempt) && outcome.FetchFailed? ==> r.error == Some(BrightcoveFailedMessage) && r.src == p.src
    ensures r.isPlaying == p.isPlaying && r.isFirstPlay == p.isFirstPlay && r.position == p.position
  {
    if p.active != Some(attempt) then p
    else
      match outcome
      case Fetched(s) => p.(src := Some(s), loading := false, active := None)
      case FetchFailed => p.(error := Some(BrightcoveFailedMessage), loading := false, active := None)
  }

  /** Unmounting runs the resolution effect's cleanup: the in-flight attempt, if any, is
      cancelled. */
  function Unmount(p: Player): (r: Player)
    requires Valid(p)
    ensures Valid(r) && r.active == None
    ensures r == p.(active := None)
  {
    p.(active := None)
  }

  // ---------------------------------------------------------------------------
  // Playback control
  // ---------------------------------------------------------------------------

  /** `play`, used by the poster and the imperative handle. It does not write the slot. */
  function Play(p: Player): (r: Player)
    ensures r.isPlaying && r == p.(isPlaying := true)
  {
    p.(isPlaying := true)
  }

  /** `pause`. It does not touch the slot either. */
  function Pause(p: Player): (r: Player)
    ensures !r.isPlaying && r == p.(isPlaying := false)
  {
    p.(isPlaying := false)
  }

  /** `seekTo`: repositions the media element when there is one, otherwise does nothing. */
  function SeekTo(p: Player, seconds: real): (r: Player)
    ensures HasMediaElement(p) ==> r.position == seconds
    ensures !HasMediaElement(p) ==> r == p
    ensures r == p.(position := r.position)
  {
    if HasMediaElement(p) then p.(position := seconds) else p
  }

  /** The eviction reaction to the slot: a player that does not own the slot stops,
      rewinds to the start and shows its poster state again. */
  function ObserveSlot(p: Player, slot: Option<string>): (r: Player)
    ensures slot == Some(p.id) ==> r == p
    ensures slot != Some(p.id) ==> !r.isPlaying && r.isFirstPlay
    ensures slot != Some(p.id) && HasMediaElement(p) ==> r.position == 0.0
    ensures !HasMediaElement(p) ==> r.position == p.position
    ensures r == p.(isPlaying := r.isPlaying, isFirstPlay := r.isFirstPlay, position := r.position)
  {
    if slot != Some(p.id) then SeekTo(Pause(p), 0.0).(isFirstPlay := true) else p
  }

  /** The media element's `onPlay` callback: claim the slot for this player. */
  function HandlePlay(p: Player): (a: MediaSlice.MediaAction)
    ensures MediaSlice.OwnsSlot(MediaSlice.Reduce(MediaSlice.InitialState(), a), p.id)
    ensures forall s: MediaSlice.MediaState {:trigger MediaSlice.Reduce(s, a)} :: MediaSlice.Reduce(s, a).currentlyPlaying == Some(p.id)
  {
    MediaSlice.SetCurrentlyPlaying(Some(p.id))
  }

  // ---------------------------------------------------------------------------
  // Rendering
  // ---------------------------------------------------------------------------

  const DefaultPadding: string := "56.25%"

  /** The padding table, keyed by aspect ratio, with its `default` row. */
  const PaddingTable: map<string, string> :=
    map["default" := DefaultPadding, "9/16" := "177.78%", "1/1" := "100%", "16/9" := "56.25%", "21/9" := "42.86%"]

  /** The padding that keeps the box at the descriptor's aspect ratio; an absent, empty
      or unknown ratio falls back to the default row. */
  function AspectRatioPadding(data: Option<VideoData>): (pad: string)
    ensures pad in PaddingTable.Values
    ensures data.None? || !Truthy(data.value.aspectRatio) ==> pad == DefaultPadding
    ensures data.Some? && data.value.aspectRatio == Some("9/16") ==> pad == "177.78%"
    ensures data.Some? && data.value.aspectRatio == Some("1/1") ==> pad == "100%"
    ensures data.Some? && data.value.aspectRatio == Some("16/9") ==> pad == "56.25%"
    ensures data.Some? && data.value.aspectRatio == Some("21/9") ==> pad == "42.86%"
    ensures data.Some? && Truthy(data.value.aspectRatio) && data.value.aspectRatio.value !in PaddingTable ==>
              pad == DefaultPadding
  {
    if data.Some? && Truthy(data.value.aspectRatio) && data.value.aspectRatio.value in PaddingTable
    then PaddingTable[data.value.aspectRatio.value]
    else assert PaddingTable["default"] == DefaultPadding; DefaultPadding
  }

  /** What a player renders. */
  datatype View =
    | Nothing
    | ErrorView(message: string, padding: string)
    | LoadingView(padding: string)
    | PlayerView(src: string, playing: bool, poster: bool, padding: string)

  /** True when the descriptor asks for a muted looping preview as its poster. */
  predicate WantsPosterVideo(data: Option<VideoData>)
  {
    data.Some? && data.value.thumbnailStyle == Some(PosterVideoStyle)
  }

  /** Render precedence: not yet mounted renders nothing, then an error, then the
      loading state while there is no source, then the player; the poster overlays the
      player before its first play. */
  function Render(p: Player): (v: View)
    ensures v.Nothing? <==> !p.isMounted
    ensures v.ErrorView? <==> p.isMounted && Truthy(p.error)
    ensures v.LoadingView? <==> p.isMounted && !Truthy(p.error) && !Truthy(p.src)
    ensures v.PlayerView? <==> HasMediaElement(p)
    ensures v.ErrorView? ==> v.message == p.error.value
    ensures v.PlayerView? ==> v.src == p.src.value && v.playing == p.isPlaying
    ensures v.PlayerView? ==> (v.poster <==> p.isFirstPlay && !p.isPlaying && WantsPosterVideo(p.data))
    ensures !v.Nothing? ==> v.padding == AspectRatioPadding(p.data)
  {
    var pad := AspectRatioPadding(p.data);
    if !p.isMounted then Nothing
    else if Truthy(p.error) then ErrorView(p.error.value, pad)
    else if !Truthy(p.src) then LoadingView(pad)
    else PlayerView(p.src.value, p.isPlaying, p.isFirstPlay && !p.isPlaying && WantsPosterVideo(p.data), pad)
  }

  // ---------------------------------------------------------------------------
  // Events and cancellation
  // ---------------------------------------------------------------------------

  /** Everything that can happen to one player. */
  datatype PlayerEvent =
    | Mounted
    | DataChanged(data: Option<VideoData>)
    | FetchSettled(attempt: nat, outcome: FetchOutcome)
    | SlotChanged(slot: Option<string>)
    | PlayCalled
    | PauseCalled
    | SeekCalled(seconds: real)
    | Unmounted

  function Step(p: Player, e: PlayerEvent): (r: Player)
    requires Valid(p)
    ensures Valid(r) && r.id == p.id && r.issued >= p.issued
  {
    match e
    case Mounted => Mount(p)
    case DataChanged(d) => Resolve(p, d)
    case FetchSettled(t, o) => Settle(p, t, o)
    case SlotChanged(s) => ObserveSlot(p, s)
    case PlayCalled => Play(p)
    case PauseCalled => Pause(p)
    case SeekCalled(t) => SeekTo(p, t)
    case Unmounted => Unmount(p)
  }

  function Run(p: Player, events: seq<PlayerEvent>): (r: Player)
    requires Valid(p)
    ensures Valid(r) && r.id == p.id && r.issued >= p.issued
    decreases |events|
  {
    if |events| == 0 then p else Run(Step(p, events[0]), events[1..])
  }

  /** Attempt `t` was started and can no longer write: either a cleanup cleared its
      flag or it has already completed. */
  predicate Inactive(p: Player, t: nat)
  {
    t < p.issued && p.active != Some(t)
  }

  /** A descriptor change cancels the attempt that was in flight. */
  lemma DataChangeCancels(p: Player, data: Option<VideoData>)
    requires Valid(p) && p.active.Some?
    ensures Inactive(Resolve(p, data), p.active.value)
  {
  }

  /** Unmounting cancels the attempt that was in flight. */
  lemma UnmountCancels(p: Player)
    requires Valid(p) && p.active.Some?
    ensures Inactive(Unmount(p), p.active.value)
  {
  }

  /** An inactive attempt stays inactive whatever happens next: tokens are never reused. */
  lemma {:induction false} InactiveStaysInactive(p: Player, events: seq<PlayerEvent>, t: nat)
    requires Valid(p) && Inactive(p, t)
    ensures Inactive(Run(p, events), t)
    decreases |events|
  {
    if |events| > 0 {
      var q := Step(p, events[0]);
      assert Inactive(q, t) by {
        match events[0]
        case DataChanged(d) =>
        case FetchSettled(a, o) =>
        case Mounted =>
        case SlotChanged(s) =>
        case PlayCalled =>
        case PauseCalled =>
        case SeekCalled(x) =>
        case Unmounted =>
      }
      InactiveStaysInactive(q, events[1..], t);
    }
  }

  /** The completion of an inactive attempt, a cancelled one in particular, changes
      nothing: none of `src`, `error` or `loading`. */
  lemma LateCompletionIgnored(p: Player, t: nat, outcome: FetchOutcome)
    requires Valid(p) && Inactive(p, t)
    ensures Settle(p, t, outcome) == p
  {
  }

  /** Once the descriptor has changed, the superseded attempt's completion, arriving after
      any further events, cannot write state. */
  lemma SupersededAttemptNeverWrites(p: Player, data: Option<VideoData>, later: seq<PlayerEvent>, outcome: FetchOutcome)
    requires Valid(p) && p.active.Some?
    ensures var q := Run(Resolve(p, data), later);
            Step(q, FetchSettled(p.active.value, outcome)) == q
  {
    DataChangeCancels(p, data);
    InactiveStaysInactive(Resolve(p, data), later, p.active.value);
  }

  /** An error, once shown, survives every later event: a new descriptor, even a valid
      one, does not clear it. */
  lemma {:induction false} StaleErrorPersists(p: Player, events: seq<PlayerEvent>)
    requires Valid(p) && p.error.Some?
    ensures Run(p, events).error.Some?
    decreases |events|
  {
    if |events| > 0 {
      var q := Step(p, events[0]);
      assert q.error.Some? by {
        match events[0]
        case DataChanged(d) =>
        case FetchSettled(a, o) =>
        case Mounted =>
        case SlotChanged(s) =>
        case PlayCalled =>
        case PauseCalled =>
        case SeekCalled(x) =>
        case Unmounted =>
      }
      StaleErrorPersists(q, events[1..]);
    }
  }

  /** Running the eviction reaction twice on the same slot value is the same as running
      it once. This does not make a reaction on every slot write equivalent to the
      source: a write that keeps the slot's value runs no reaction at all (see
      `Playback.ReclaimDoesNotEvict`). */
  lemma ObserveSlotIdempotent(p: Player, slot: Option<string>)
    ensures ObserveSlot(ObserveSlot(p, slot), slot) == ObserveSlot(p, slot)
  {
  }

  /** Nothing ever clears `isFirstPlay`: once set, it stays set, so a poster-video player
      shows its poster whenever it is not playing. */
  lemma {:induction false} FirstPlayNeverCleared(p: Player, events: seq<PlayerEvent>)
    requires Valid(p) && p.isFirstPlay
    ensures Run(p, events).isFirstPlay
    decreases |events|
  {
    if |events| > 0 {
      var q := Step(p, events[0]);
      assert q.isFirstPlay by {
        match events[0]
        case DataChanged(d) =>
        case FetchSettled(a, o) =>
        case Mounted =>
        case SlotChanged(s) =>
        case PlayCalled =>
        case PauseCalled =>
        case SeekCalled(x) =>
        case Unmounted =>
      }
      FirstPlayNeverCleared(q, events[1..]);
    }
  }
}

=== FILE: media_slice.dfy ===
/** The `media` slice of the store: a single shared slot naming the player, if any,
    that currently owns playback. */
module MediaSlice {
  import opened Base

  /** The slice state. Being one nullable field, it names at most one player. */
  datatype MediaState = MediaState(currentlyPlaying: Option<string>)

  /** The slice's only action. */
  datatype MediaAction = SetCurrentlyPlaying(payload: Option<string>)

  /** The state the store starts in: nobody is playing. */
  function InitialState(): (s: MediaState)
    ensures s.currentlyPlaying == None
  {
    MediaState(None)
  }

  /** True when `id` occupies the slot. */
  predicate OwnsSlot(state: MediaState, id: string)
  {
    state.currentlyPlaying == Some(id)
  }

  /** The reducer: an unconditional overwrite of the slot, with no compare-and-swap,
      so a `null` payload empties it. */
  function Reduce(state: MediaState, action: MediaAction): (r: MediaState)
    ensures r.currentlyPlaying == action.payload
    ensures action.payload.Some? ==> OwnsSlot(r, action.payload.value)
  {
    match action
    case SetCurrentlyPlaying(p) => state.(currentlyPlaying := p)
  }

  /** Dispatching a sequence of actions, first to last. */
  function ReduceAll(state: MediaState, actions: seq<MediaAction>): MediaState
    decreases |actions|
  {
    if |actions| == 0 then state else ReduceAll(Reduce(state, actions[0]), actions[1..])
  }

  /** At most one identifier owns the slot at any time. */
  lemma SlotHasOneOwner(state: MediaState, a: string, b: string)
    requires OwnsSlot(state, a) && OwnsSlot(state, b)
    ensures a == b
  {
  }

  /** Last writer wins: an earlier write leaves no trace. */
  lemma LastWriterWins(state: MediaState, first: MediaAction, second: MediaAction)
    ensures Reduce(Reduce(state, first), second) == Reduce(state, second)
  {
  }

  /** Writing the same payload twice is the same as writing it once. */
  lemma ReduceIdempotent(state: MediaState, action: MediaAction)
    ensures Reduce(Reduce(state, action), action) == Reduce(state, action)
  {
  }

  /** Over any run of writes only the last one matters; an empty run changes nothing. */
  lemma {:induction false} ReplayKeepsOnlyLast(state: MediaState, actions: seq<MediaAction>)
    ensures |actions| == 0 ==> ReduceAll(state, actions) == state
    ensures |actions| > 0 ==> ReduceAll(state, actions) == Reduce(state, actions[|actions| - 1])
    decreases |actions|
  {
    if |actions| > 1 {
      var rest := actions[1..];
      ReplayKeepsOnlyLast(Reduce(state, actions[0]), rest);
      assert rest[|rest| - 1] == actions[|actions| - 1];
      LastWriterWins(state, actions[0], actions[|actions| - 1]);
    }
  }
}

=== FILE: playback.dfy ===
/** A page: the shared playback slot and the players that observe it. Writing the slot
    dispatches to the store; each player's eviction effect re-runs when the slot's value
    changes, and only then. */
module Playback {
  import opened Base
  import opened MediaSlice
  import opened InlineVideo

  datatype Page = Page(media: MediaState, players: seq<Player>)

  /** Player identifiers are pairwise distinct (they come from distinct uuids). */
  predicate DistinctIds(players: seq<Player>)
  {
    forall j, k :: 0 <= j < |players| && 0 <= k < |players| && j != k ==> players[j].id != players[k].id
  }

  /** Every player that is playing owns the slot. */
  predicate Quiescent(page: Page)
  {
    forall k :: 0 <= k < |page.players| && page.players[k].isPlaying ==>
      OwnsSlot(page.media, page.players[k].id)
  }

  /** No two players are playing at once. */
  predicate AtMostOnePlaying(players: seq<Player>)
  {
    forall j, k :: 0 <= j < |players| && 0 <= k < |players| && players[j].isPlaying && players[k].isPlaying ==> j == k
  }

  /** A fresh page: an empty slot, players created from pairwise distinct uuids. */
  function InitialPage(uuids: seq<string>): (page: Page)
    requires forall j, k :: 0 <= j < |uuids| && 0 <= k < |uuids| && j != k ==> uuids[j] != uuids[k]
    ensures |page.players| == |uuids| && page.media.currentlyPlaying == None
    ensures DistinctIds(page.players) && Quiescent(page)
  {
    var players := seq(|uuids|, k requires 0 <= k < |uuids| => InlineVideo.Initial(uuids[k]));
    assert forall j, k :: 0 <= j < |uuids| && 0 <= k < |uuids| && j != k ==> players[j].id != players[k].id by {
      forall j, k | 0 <= j < |uuids| && 0 <= k < |uuids| && j != k
        ensures players[j].id != players[k].id
      {
        PlayerIdInjective(uuids[j], uuids[k]);
      }
    }
    Page(InitialState(), players)
  }

  /** Every player runs its eviction reaction to `slot`. */
  function ObserveAll(players: seq<Player>, slot: Option<string>): (r: seq<Player>)
    ensures |r| == |players|
    ensures forall k :: 0 <= k < |r| ==> r[k] == ObserveSlot(players[k], slot)
    decreases |players|
  {
    if |players| == 0 then [] else [ObserveSlot(players[0], slot)] + ObserveAll(players[1..], slot)
  }

  /** A write to the slot, followed by the players' reactions when its value changed. */
  function Dispatch(page: Page, action: MediaAction): (r: Page)
    ensures r.media.currentlyPlaying == action.payload
    ensures |r.players| == |page.players|
    ensures forall k :: 0 <= k < |r.players| ==> r.players[k].id == page.players[k].id
    ensures action.payload != page.media.currentlyPlaying ==>
              forall k :: 0 <= k < |r.players| ==> r.players[k] == ObserveSlot(page.players[k], action.payload)
    ensures action.payload == page.media.currentlyPlaying ==> r.players == page.players
  {
    var media := Reduce(page.media, action);
    if media.currentlyPlaying == page.media.currentlyPlaying then page.(media := media)
    else Page(media, ObserveAll(page.players, media.currentlyPlaying))
  }

  /** Player `i`'s media element starts playing and claims the slot. */
  function PlayerStarted(page: Page, i: nat): (r: Page)
    requires i < |page.players|
    ensures OwnsSlot(r.media, page.players[i].id)
  {
    Dispatch(page, HandlePlay(page.players[i]))
  }

  /** Player `i` is told to play (the poster click or the imperative handle). */
  function PlayerPlayCalled(page: Page, i: nat): (r: Page)
    requires i < |page.players|
    ensures r.media == page.media && |r.players| == |page.players|
    ensures r.players[i].isPlaying
    ensures forall k :: 0 <= k < |r.players| && k != i ==> r.players[k] == page.players[k]
  {
    page.(players := page.players[i := Play(page.players[i])])
  }

  /** A page where every playing player owns the slot has at most one playing player. */
  lemma QuiescentIsExclusive(page: Page)
    requires DistinctIds(page.players) && Quiescent(page)
    ensures AtMostOnePlaying(page.players)
  {
  }

  /** After player `i` claims the slot and every other player reacts, nobody but `i` is
      playing. This needs either a quiescent page or a slot that actually changes: the
      reactions only run on a change. */
  lemma PlayerStartedExcludesOthers(page: Page, i: nat)
    requires DistinctIds(page.players) && i < |page.players|
    requires Quiescent(page) || !OwnsSlot(page.media, page.players[i].id)
    ensures var r := PlayerStarted(page, i);
            Quiescent(r) && AtMostOnePlaying(r.players) &&
            forall k :: 0 <= k < |r.players| && k != i ==> !r.players[k].isPlaying
  {
  }

  /** The slot's owner re-claiming it does not evict another player that was told to
      play: the slot's value does not change, so no reaction runs. */
  lemma ReclaimDoesNotEvict(page: Page, i: nat, j: nat)
    requires i < |page.players| && j < |page.players| && i != j
    requires OwnsSlot(page.media, page.players[i].id) && page.players[j].isPlaying
    ensures PlayerStarted(page, i).players[j].isPlaying
  {
  }

  /** Telling a player that does not own the slot to play, while the owner plays, leaves
      two players playing until the newcomer's media element claims the slot. */
  lemma PlayCallOverlaps(page: Page, i: nat, j: nat)
    requires DistinctIds(page.players) && i < |page.players| && j < |page.players| && i != j
    requires OwnsSlot(page.media, page.players[i].id) && page.players[i].isPlaying
    ensures !AtMostOnePlaying(PlayerPlayCalled(page, j).players)
    ensures var r := PlayerStarted(PlayerPlayCalled(page, j), j);
            AtMostOnePlaying(r.players) && r.players[j].isPlaying
  {
  }
}

=== FILE: slider_dots.dfy ===
/** Dot navigation: one dot per scroll snap, the current one marked active. */
module SliderDots {
  import opened Base
  import opened Embla
  import opened SliderProvider

  datatype Dot = Dot(index: nat, active: bool)

  /** The snap list the dots were last built from; empty until the library is available. */
  datatype DotsState = DotsState(scrollSnaps: seq<real>)

  function InitialDots(): (d: DotsState)
    ensures |d.scrollSnaps| == 0
  {
    DotsState([])
  }

  /** Re-reading the snap list, when the library becomes available and on every `reInit`. */
  function Refresh(api: EmblaApi): (d: DotsState)
    ensures d.scrollSnaps == api.scrollSnaps
  {
    DotsState(api.scrollSnaps)
  }

  /** Nothing renders without the library; otherwise one dot per snap, dot `i` active
      exactly when it is the current slide. */
  function Render(api: Option<EmblaApi>, dots: DotsState, currentSlide: int): (r: Option<seq<Dot>>)
    ensures r.None? <==> api.None?
    ensures r.Some? ==> |r.value| == |dots.scrollSnaps|
    ensures r.Some? ==> forall i :: 0 <= i < |r.value| ==> r.value[i].index == i
    ensures r.Some? ==> forall i :: 0 <= i < |r.value| ==> (r.value[i].active <==> currentSlide == i)
  {
    if api.None? then None
    else Some(seq(|dots.scrollSnaps|, (i: nat) => Dot(i, currentSlide == i)))
  }

  /** At most one dot is active. */
  lemma AtMostOneActiveDot(api: Option<EmblaApi>, dots: DotsState, currentSlide: int, i: nat, j: nat)
    requires Render(api, dots, currentSlide).Some?
    requires i < |Render(api, dots, currentSlide).value| && j < |Render(api, dots, currentSlide).value|
    requires Render(api, dots, currentSlide).value[i].active && Render(api, dots, currentSlide).value[j].active
    ensures i == j
  {
  }

  /** After a refresh there is one dot per snap the library reports. */
  lemma DotsFollowSnapList(api: EmblaApi, currentSlide: int)
    ensures |Render(Some(api), Refresh(api), currentSlide).value| == |api.scrollSnaps|
  {
  }

  /** Clicking dot `index` pauses the animation, then scrolls to exactly that index;
      without the library it does nothing. */
  function OnClick(api: Option<EmblaApi>, ctx: SliderContext, index: int): (effects: seq<Effect>)
    ensures api.None? ==> effects == []
    ensures api.Some? ==> Calls(effects) == [ScrollTo(index)]
    ensures api.Some? ==> RunEffects(ctx, effects) == SetAnimationPaused(ctx, true)
    ensures PausedBeforeEachCall(ctx, effects)
  {
    if api.None? then []
    else
      var effects := [PausedSet(true), Invoke(ScrollTo(index))];
      assert effects[..1] == [PausedSet(true)];
      assert effects[1..][1..] == [];
      assert Calls(effects[1..]) == [ScrollTo(index)];
      assert RunEffects(ctx, effects) == RunEffects(SetAnimationPaused(ctx, true), effects[1..]);
      effects
  }
}

=== FILE: slider_next_button.dfy ===
/** The "next slide" button. */
module SliderNextButton {
  import opened Base
  import opened Embla
  import opened SliderProvider

  /** The button is disabled while the carousel library is not available. */
  function Disabled(api: Option<EmblaApi>): bool
  {
    api.None?
  }

  /** A click pauses the animation, then asks the library for the next slide; without the
      library it does nothing. */
  function OnClick(api: Option<EmblaApi>, ctx: SliderContext): (effects: seq<Effect>)
    ensures api.None? ==> effects == []
    ensures api.Some? ==> Calls(effects) == [ScrollNext]
    ensures api.Some? ==> RunEffects(ctx, effects) == SetAnimationPaused(ctx, true)
    ensures PausedBeforeEachCall(ctx, effects)
  {
    if api.None? then []
    else
      var effects := [PausedSet(true), Invoke(ScrollNext)];
      assert effects[..1] == [PausedSet(true)];
      effects
  }

  /** The button is disabled exactly when a click would have no effect. */
  lemma DisabledExactlyWhenInert(api: Option<EmblaApi>, ctx: SliderContext)
    ensures Disabled(api) <==> OnClick(api, ctx) == []
  {
  }
}

=== FILE: slider_pause_button.dfy ===
/** The pause/resume toggle. */
module SliderPauseButton {
  import opened SliderProvider

  const ResumeLabel: string := "Resume"
  const PauseLabel: string := "Pause"

  /** The button reads "Resume" while paused and "Pause" otherwise. */
  function Label(ctx: SliderContext): (s: string)
    ensures s == ResumeLabel <==> ctx.animationPaused
    ensures s == PauseLabel <==> !ctx.animationPaused
  {
    if ctx.animationPaused then ResumeLabel else PauseLabel
  }

  /** A click negates the pause flag and changes nothing else. */
  function OnClick(ctx: SliderContext): (effects: seq<Effect>)
    ensures RunEffects(ctx, effects).animationPaused == !ctx.animationPaused
    ensures RunEffects(ctx, effects).currentSlide == ctx.currentSlide
    ensures Calls(effects) == []
  {
    [PausedSet(!ctx.animationPaused)]
  }

  /** Two clicks restore the original context. */
  lemma TwoClicksRestore(ctx: SliderContext)
    ensures var once := RunEffects(ctx, OnClick(ctx));
            RunEffects(once, OnClick(once)) == ctx
  {
  }

  /** Every click flips the label. */
  lemma ClickFlipsLabel(ctx: SliderContext)
    ensures Label(RunEffects(ctx, OnClick(ctx))) != Label(ctx)
  {
  }
}

=== FILE: slider_prev_button.dfy ===
/** The "previous slide" button. */
module SliderPrevButton {
  import opened Base
  import opened Embla
  import opened SliderProvider

  /** The button is disabled while the carousel library is not available. */
  function Disabled(api: Option<EmblaApi>): bool
  {
    api.None?
  }

  /** A click pauses the animation, then asks the library for the previous slide; without the
      library it does nothing. */
  function OnClick(api: Option<EmblaApi>, ctx: SliderContext): (effects: seq<Effect>)
    ensures api.None? ==> effects == []
    ensures api.Some? ==> Calls(effects) == [ScrollPrev]
    ensures api.Some? ==> RunEffects(ctx, effects) == SetAnimationPaused(ctx, true)
    ensures PausedBeforeEachCall(ctx, effects)
  {
    if api.None? then []
    else
      var effects := [PausedSet(true), Invoke(ScrollPrev)];
      assert effects[..1] == [PausedSet(true)];
      effects
  }

  /** The button is disabled exactly when a click would have no effect. */
  lemma DisabledExactlyWhenInert(api: Option<EmblaApi>, ctx: SliderContext)
    ensures Disabled(api) <==> OnClick(api, ctx) == []
  {
  }
}

=== FILE: slider_provider.dfy ===
/** The slider's shared context: the current slide and the explicit pause flag, plus
    the ordered effects that the controls apply to it and to the carousel library. */
module SliderProvider {
  import opened Base
  import opened Embla

  datatype SliderContext = SliderContext(currentSlide: int, animationPaused: bool)

  const OutsideProviderMessage: string := "useSliderContext must be used within a SliderProvider"

  /** The provider's initial state: first slide, animation not paused. */
  function InitialContext(): (c: SliderContext)
    ensures c.currentSlide == 0 && !c.animationPaused
  {
    SliderContext(0, false)
  }

  /** The `currentSlide` setter; the pause flag is untouched. */
  function SetCurrentSlide(ctx: SliderContext, index: int): (r: SliderContext)
    ensures r.currentSlide == index && r.animationPaused == ctx.animationPaused
  {
    ctx.(currentSlide := index)
  }

  /** The `animationPaused` setter; the current slide is untouched. */
  function SetAnimationPaused(ctx: SliderContext, paused: bool): (r: SliderContext)
    ensures r.animationPaused == paused && r.currentSlide == ctx.currentSlide
  {
    ctx.(animationPaused := paused)
  }

  /** The two setters are independent of each other. */
  lemma SettersCommute(ctx: SliderContext, index: int, paused: bool)
    ensures SetCurrentSlide(SetAnimationPaused(ctx, paused), index)
         == SetAnimationPaused(SetCurrentSlide(ctx, index), paused)
  {
  }

  /** Reading the context: an error outside a provider, the provider's value inside one. */
  function UseSliderContext(provided: Option<SliderContext>): (r: Result<SliderContext>)
    ensures r.Err? <==> provided.None?
    ensures r.Err? ==> r.message == OutsideProviderMessage
    ensures r.Ok? ==> r.value == provided.value
  {
    match provided
    case None => Err(OutsideProviderMessage)
    case Some(c) => Ok(c)
  }

  /** One effect of a control, in the order the control performs it. */
  datatype Effect = SlideSet(index: int) | PausedSet(paused: bool) | Invoke(call: EmblaCall)

  function Apply(ctx: SliderContext, e: Effect): SliderContext
  {
    match e
    case SlideSet(i) => SetCurrentSlide(ctx, i)
    case PausedSet(b) => SetAnimationPaused(ctx, b)
    case Invoke(_) => ctx
  }

  /** The context after a sequence of effects, first to last. */
  function RunEffects(ctx: SliderContext, effects: seq<Effect>): SliderContext
    decreases |effects|
  {
    if |effects| == 0 then ctx else RunEffects(Apply(ctx, effects[0]), effects[1..])
  }

  /** The library calls among the effects, in order. */
  function Calls(effects: seq<Effect>): seq<EmblaCall>
    decreases |effects|
  {
    if |effects| == 0 then []
    else (if effects[0].Invoke? then [effects[0].call] else []) + Calls(effects[1..])
  }

  /** In the handler's order, the pause request precedes every library call. The
      request is a state setter that takes effect only after the handler returns, so the
      library sees the call before the pause effect stops the plugin. */
  predicate PausedBeforeEachCall(ctx: SliderContext, effects: seq<Effect>)
  {
    forall k :: 0 <= k < |effects| && effects[k].Invoke? ==> RunEffects(ctx, effects[..k]).animationPaused
  }
}

=== FILE: slider_system.dfy ===
/** The slider's controls acting on a running carousel, and the dots kept in step with
    the library's snap list. */
module SliderSystem {
  import opened Base
  import opened Embla
  import opened SliderProvider
  import opened AppSlider
  import SliderPauseButton
  import SliderNextButton
  import SliderPrevButton
  import SliderDots

  /** Manual navigation (next, previous or a dot) stops an installed animation and
      leaves the current slide to the library's next `select` event. */
  lemma ManualNavigationStopsAnimation(s: SliderState, effects: seq<Effect>, index: int)
    requires s.api.Some? && s.config.animation != Default
    requires effects == SliderNextButton.OnClick(s.api, s.ctx)
          || effects == SliderPrevButton.OnClick(s.api, s.ctx)
          || effects == SliderDots.OnClick(s.api, s.ctx, index)
    ensures var r := Step(s, ContextEffects(effects));
            !r.running && r.ctx.animationPaused && r.ctx.currentSlide == s.ctx.currentSlide
  {
  }

  /** Resuming with the pause button restarts the animation exactly when the hover
      trigger does not hold. */
  lemma ResumeRestartsUnlessHovered(s: SliderState)
    requires s.api.Some? && s.config.animation != Default && s.ctx.animationPaused
    ensures var r := Step(s, ContextEffects(SliderPauseButton.OnClick(s.ctx)));
            !r.ctx.animationPaused && (r.running <==> !(s.config.pauseOnHover && s.isHovered))
  {
  }

  /** Pausing with the pause button always stops an installed animation. */
  lemma PauseAlwaysStops(s: SliderState)
    requires s.api.Some? && s.config.animation != Default && !s.ctx.animationPaused
    ensures !Step(s, ContextEffects(SliderPauseButton.OnClick(s.ctx))).running
  {
  }

  /** As written, autoplay does not come back after a pause and a resume: the resume
      `reset`s a timer that the pause stopped. */
  lemma AutoplayDoesNotResume(s: SliderState)
    requires s.api.Some? && s.config.animation == Autoplay
    requires !s.ctx.animationPaused && !(s.config.pauseOnHover && s.isHovered)
    ensures var paused := StepAsWritten(s, ContextEffects(SliderPauseButton.OnClick(s.ctx)));
            var resumed := StepAsWritten(paused, ContextEffects(SliderPauseButton.OnClick(paused.ctx)));
            !EffectivelyPaused(resumed) && !resumed.running
  {
  }

  /** With the corrected pause effect, the same pause and resume restart the animation. */
  lemma PauseResumeRestarts(s: SliderState)
    requires s.api.Some? && s.config.animation != Default
    requires !s.ctx.animationPaused && !(s.config.pauseOnHover && s.isHovered)
    ensures var paused := Step(s, ContextEffects(SliderPauseButton.OnClick(s.ctx)));
            var resumed := Step(paused, ContextEffects(SliderPauseButton.OnClick(paused.ctx)));
            !paused.running && !EffectivelyPaused(resumed) && resumed.running
  {
  }

  // ---------------------------------------------------------------------------
  // Dots kept in step with the library
  // ---------------------------------------------------------------------------

  /** A carousel with its dot navigation. */
  datatype Carousel = Carousel(slider: SliderState, dots: SliderDots.DotsState)

  /** Events of the carousel: the slider's own, and the library's `reInit`, which reports
      a new snap list. */
  datatype CarouselEvent = SliderChanged(e: SliderEvent) | ReInit(api: EmblaApi)

  /** The dots hold the snap list of the library they were last refreshed from, and none
      before the library is available. */
  predicate DotsInStep(c: Carousel)
  {
    && (c.slider.api.None? ==> |c.dots.scrollSnaps| == 0)
    && (c.slider.api.Some? ==> c.dots.scrollSnaps == c.slider.api.value.scrollSnaps)
  }

  /** One carousel event. The dots refresh when the library becomes available and on
      every `reInit`; the slider sees the library's new report on `reInit`. The pause
      effect does not re-run on `reInit`: the library object keeps its identity, so none
      of the effect's dependencies change. */
  function CarouselStep(c: Carousel, e: CarouselEvent): (r: Carousel)
    ensures e.SliderChanged? && e.e.ApiReady? ==> r.dots.scrollSnaps == e.e.api.scrollSnaps
    ensures e.ReInit? && c.slider.api.Some? ==> r.dots.scrollSnaps == e.api.scrollSnaps && r.slider == c.slider.(api := Some(e.api))
    ensures e.ReInit? && c.slider.api.None? ==> r == c
    ensures e.SliderChanged? && !e.e.ApiReady? ==> r.dots == c.dots
    ensures e.SliderChanged? ==> r.slider == Step(c.slider, e.e)
  {
    match e
    case SliderChanged(ev) =>
      var slider := Step(c.slider, ev);
      if ev.ApiReady? then Carousel(slider, SliderDots.Refresh(ev.api)) else c.(slider := slider)
    case ReInit(api) =>
      if c.slider.api.None? then c
      else Carousel(c.slider.(api := Some(api)), SliderDots.Refresh(api))
  }

  /** After the library appears or re-initialises, there is one dot per snap it reports. */
  lemma DotsFollowLibrary(c: Carousel, e: CarouselEvent)
    requires e.ReInit? ==> c.slider.api.Some?
    requires e.SliderChanged? ==> e.e.ApiReady?
    ensures var r := CarouselStep(c, e);
            var api := if e.ReInit? then e.api else e.e.api;
            SliderDots.Render(r.slider.api, r.dots, r.slider.ctx.currentSlide).Some?
            && |SliderDots.Render(r.slider.api, r.dots, r.slider.ctx.currentSlide).value| == |api.scrollSnaps|
  {
  }

  function RunCarousel(c: Carousel, events: seq<CarouselEvent>): Carousel
    decreases |events|
  {
    if |events| == 0 then c else RunCarousel(CarouselStep(c, events[0]), events[1..])
  }

  /** Across any run of events, the dots match the library's current snap list, and
      nothing renders before the library exists. */
  lemma {:induction false} DotsAlwaysInStep(c: Carousel, events: seq<CarouselEvent>)
    requires DotsInStep(c)
    ensures DotsInStep(RunCarousel(c, events))
    decreases |events|
  {
    if |events| > 0 {
      var q := CarouselStep(c, events[0]);
      assert DotsInStep(q) by {
        match events[0]
        case ReInit(api) =>
        case SliderChanged(ev) =>
          match ev
          case ApiReady(a, m) =>
          case Selected(n, m) =>
          case Resized(m) =>
          case MouseEnter =>
          case MouseLeave =>
          case ContextEffects(es) =>
      }
      DotsAlwaysInStep(q, events[1..]);
    }
  }
}
